=== FILE: README.md ===
# Crotine task runtime: a Dafny model of its sequential core

Crotine is a C++20 coroutine task runtime. A `Task<T>` wraps a coroutine whose
promise is a result cell: an optional value, a `std::promise`/`std::future`
pair for blocking waits, and a singly linked list of continuations. A
continuation is a callback that runs when the cell resolves. `co_await task`
goes through an awaiter. The awaiter is ready when the cell is resolved.
Otherwise it registers a continuation, which resubmits the waiting coroutine
to the waiting coroutine's own executor. Every promise derives from
`PromiseBase`, which holds a rebindable executor reference. The
`get_Execution_Context` awaitable lets a running coroutine read that
reference. The pool executor `Xecutor` keeps a deque of idle worker threads,
with the most recently used one at the front.

This project models four headers. Concurrency is abstracted away: each method
call is one atomic step.

- `common.dfy` (module `Common`): ids for coroutines, executors, workers and
  callbacks. `DefaultExecutor` stands for `Executor::getDefaultExecutor()`.
  Also the jobs submitted to executors, the errors the runtime throws, and
  the text of those errors.
- `execution_context.dfy` (module `ExecutionContext`,
  include/PromiseBase.hpp): the classes `PromiseBase` and
  `GetExecutionContext`. `CoAwaitExecutionContext` is the `co_await`
  expansion of `get_Execution_Context`.
- `continuations.dfy` (module `Continuations`): the value-level
  specification of a continuation list. Registration is `Register`
  (`emplace_front`). Resolution is `Notify`/`FireAll`/`RunAll` (the
  range-for over the list). It also holds the lemmas on firing order,
  exactly-once delivery and the waiter's executor.
- `coroutines.dfy` (module `Coroutines`): coroutine frames as objects with a
  state (suspended, parked at the final suspend point, destroyed) and a
  destroy counter. `AfterFinalSuspend` covers both final-suspend policies.
- `tasks.dfy` (module `Tasks`, include/Task.hpp): `Promise<T>`,
  `VoidPromise` (the `Task<void>` specialisation), `Awaiter<T>`,
  `VoidAwaiter` and the non-owning `Task`. Every method that changes a
  continuation list or runs it (`ChainOnResolved`, `ChainOnResolvedWithValue`,
  the awaiters' `AwaitSuspend` members, `ReturnValue`, `ReturnVoid`) is
  proved against the functions of `Continuations`. The blocking waits
  (`GetWaitedValue`, `Wait`) are proved against the state of the future,
  and `Wait` against `OutcomeOfWait`. `RunToCompletion` shows the
  include/Task.hpp frame lifecycle. `AwaitAfterWaitHangs` and
  `AwaitVoidAfterWait` show the `Task<void>` await protocol on a live
  promise, with no frame.
- `crotine.dfy` (module `Crotine`, include/crotine.hpp): the owning `Task`
  with its destroying destructor, the defaulted move and the `execute_async`
  that captures `this`. The promise and the awaiter of this header are the
  same code as those of include/Task.hpp, and the model reuses
  `Tasks.Promise` and `Tasks.Awaiter` for them. `AwaitPendingThenResolve`
  and `AwaitResolved` show the await protocol end to end on a frame that
  stays alive.
- `pool.dfy` (module `Pool`, include/Xecutor.hpp): the pool as a state
  (`PoolState`: idle deque, busy workers, fresh-id counter). It has one
  step function per operation, a trace semantics and lemmas over them. The
  class `Xecutor` has methods `Execute`, `Complete` and `Expire`, proved
  against those step functions.

The model shows what one step hands to an executor or a callback by
returning it. `fired: seq<Event<T>>` is what a resolution runs, and
`submitted: seq<Submission>` is what `execute_async` submits. An awaiter's
continuation reads the executor of the waiting coroutine when it fires, not
when it is registered. Resolution therefore takes `contextOf`, the executor
each waiting coroutine is bound to at that moment.

Some facts about the code that shape the model:
- The code never clears `_continuations`. A resolution runs the list, and
  the entries stay in it.
- `unhandled_exception` calls `std::terminate` in both headers, so a task
  never completes with an error.
- Neither header has a `detach` operation.
- `execute_async` has no completion check. On a completed include/Task.hpp
  task, `getPromise()` already reads a frame that has freed itself (see
  "Left out").

## Model

| member | source | states |
|---|---|---|
| `ExecutionContext.PromiseBase.constructor` | include/PromiseBase.hpp:20 | a new promise is bound to the default executor |
| `ExecutionContext.PromiseBase.SetExecutionCtx` | include/PromiseBase.hpp:11-18 | afterwards `get_execution_ctx` returns the new executor, whatever was bound before |
| `ExecutionContext.GetExecutionContext.constructor` | include/PromiseBase.hpp:31 | a new awaitable has captured nothing |
| `ExecutionContext.BindingFollowsLastSet` | include/PromiseBase.hpp:11-20 | `get_execution_ctx` reports the default executor at first, then whichever executor was set last |
| `ExecutionContext.GetExecutionContext.AwaitReady` | include/PromiseBase.hpp:33-36 | ready exactly when `await_resume` would yield an executor instead of throwing |
| `ExecutionContext.GetExecutionContext.AwaitSuspend` | include/PromiseBase.hpp:37-42 | captures the caller promise's current executor and resumes the caller itself at once |
| `ExecutionContext.GetExecutionContext.AwaitResume` | include/PromiseBase.hpp:43-51 | fails with "Execution pool not set" exactly when nothing was captured; otherwise returns the captured executor |
| `ExecutionContext.CoAwaitExecutionContext` | include/PromiseBase.hpp:33-51 | `co_await get_Execution_Context{}` is never ready at first, resumes the caller inline (no executor hop) and yields the caller's current binding |
| `Continuations.RegisterAllPrepends` | include/Task.hpp:204-214 | after a series of registrations, the i-th entry is the i-th registration counted back from the newest, and the older entries follow unchanged |
| `Continuations.NotifyAt` | include/Task.hpp:167-170 | resolution yields one event per list entry, the i-th from the i-th entry |
| `Continuations.FireAllAt` | include/crotine.hpp:98-101 | in a `Task<T>` resolution the i-th event is the i-th continuation run with the resolved value |
| `Continuations.ResolutionFiresNewestFirst` | include/crotine.hpp:93-102 | resolving after registrations fires each registration exactly once, the most recent first |
| `Continuations.WaiterResumedOnItsOwnExecutor` | include/crotine.hpp:193-208 | resolution resumes a waiter once per suspended await of it, and every such resume goes to the waiter's own executor |
| `Coroutines.Frame.constructor` | include/Task.hpp:150-154 | a new frame starts suspended (`initial_suspend` is `suspend_always`) and has never been destroyed |
| `Coroutines.Frame.ReachFinalSuspend` | include/Task.hpp:156-160 | at the end of the body, a `suspend_never` frame frees itself and a `suspend_always` frame stays valid |
| `Coroutines.Frame.Destroy` | include/crotine.hpp:153-156 | `destroy()` leaves the frame destroyed and counts one more destruction |
| `Tasks.Promise.constructor` | include/Task.hpp:179-186 | a new cell is unresolved, has no continuations and is bound to the default executor |
| `Tasks.Promise.IsResolved` | include/Task.hpp:182-186 | in a consistent cell, `_value` is set exactly when `set_value` has run, so the blocking future has the value too |
| `Tasks.Promise.GetValue` | include/Task.hpp:188-196 | fails with "Value not set" exactly when unresolved; otherwise returns the stored value |
| `Tasks.Promise.ReturnValue` | include/Task.hpp:162-171 | resolves the cell so `getValue` returns `v`; on first resolution it fires the whole list front to back with `v`; a second call throws before firing anything |
| `Tasks.Promise.UnhandledException` | include/Task.hpp:173-177 | terminates; the cell is left unresolved and nothing fires |
| `Tasks.Promise.ChainOnResolved` | include/Task.hpp:204-208 | puts the `void()` callable, wrapped to ignore the value, at the front; the value is untouched |
| `Tasks.Promise.ChainOnResolvedWithValue` | include/Task.hpp:210-214 | puts the value callback at the front; the value is untouched |
| `Tasks.Promise.GetWaitedValue` | include/Task.hpp:198-202 | yields the value `set_value` stored and consumes the future; blocks before resolution; a call on the consumed future gives the `no_state` error (undefined in C++, see "Left out") |
| `Tasks.Awaiter.constructor` | include/Task.hpp:252-254 | the awaiter borrows the promise it is given |
| `Tasks.Awaiter.AwaitReady` | include/Task.hpp:256-260 | ready exactly when `getValue` would succeed |
| `Tasks.Awaiter.AwaitSuspend` | include/Task.hpp:262-276 | on an unresolved cell it adds one continuation resuming the waiter; on a resolved cell it changes nothing |
| `Tasks.Awaiter.AwaitResume` | include/Task.hpp:278-283 | returns the value exactly when the awaiter is ready, and throws otherwise |
| `Crotine.AwaitPendingThenResolve` | include/crotine.hpp:187-214 | awaiting an unresolved task suspends; resolving it submits exactly one resume of the waiter, to the waiter's executor even when the awaited task is bound elsewhere; the awaited frame stays parked, so the waiter then reads the value from a live promise |
| `Crotine.AwaitResolved` | include/crotine.hpp:87-91 | awaiting a completed task is ready at once, registers nothing and reads the value from the parked frame; the blocking wait yields the same value |
| `Tasks.VoidPromise.constructor` | include/Task.hpp:137 | a new `Task<void>` cell is unresolved, with no continuations, bound to the default executor |
| `Tasks.VoidPromise.IsResolvedAsWritten` | include/Task.hpp:113-116 | true exactly when `Wait` would return at once: so false before `return_void` and again once `Wait` has consumed the future |
| `Tasks.VoidPromise.IsResolved` | include/Task.hpp:113-116 | the intended test: true whenever the version as written is, and in a consistent cell exactly when `Wait` would not block |
| `Tasks.VoidPromise.ReturnVoid` | include/Task.hpp:123-130 | resolves the cell; on first resolution it runs every continuation once, front to back; a second call throws before running any |
| `Tasks.VoidPromise.UnhandledException` | include/Task.hpp:132-135 | terminates; nothing is resolved or fired |
| `Tasks.VoidPromise.ChainOnResolved` | include/Task.hpp:139-142 | puts the callable at the front |
| `Tasks.VoidPromise.Wait` | include/Task.hpp:118-121 | blocks before resolution; afterwards it consumes the future once, and a second call gives the `no_state` error (undefined in C++, see "Left out"); resolution is not undone, but once it obtains the future the `isResolved` as written is false |
| `Tasks.VoidAwaiter.constructor` | include/Task.hpp:252-254 | the awaiter borrows the `Task<void>` promise it is given |
| `Tasks.VoidAwaiter.AwaitReady` | include/Task.hpp:256-260 | ready exactly when `Wait` would return at once; never ready before `return_void` |
| `Tasks.VoidAwaiter.AwaitSuspend` | include/Task.hpp:262-276 | registers one waiter resume exactly when `await_ready` answers false, including after `Wait` |
| `Tasks.VoidAwaiter.AwaitReadyCorrected` | include/Task.hpp:256-260 | the intended `await_ready`: ready whenever the version as written is, and exactly when there is nothing left to wait for |
| `Tasks.VoidAwaiter.AwaitSuspendCorrected` | include/Task.hpp:262-276 | the intended `await_suspend`: registers a waiter resume only while `return_void` has yet to run |
| `Tasks.WaitThenAskResolved` | include/Task.hpp:113-121 | after `return_void` and `Wait()` the `isResolved` as written answers false while the task is resolved |
| `Tasks.AwaitAfterWaitHangs` | include/Task.hpp:256-276 | as written, awaiting after `return_void` and `Wait()` is not ready and registers a resume that never runs, since a further `return_void` throws before running any entry |
| `Tasks.AwaitVoidAfterWait` | include/Task.hpp:113-116 | with the intended `isResolved`, awaiting after `Wait()` is still ready and registers nothing |
| `Tasks.Task.constructor` | include/Task.hpp:216-217 | the Task holds the handle it was given |
| `Tasks.Task.ExecuteAsync` | include/Task.hpp:234-244 | submits exactly one resume of the handle to the task's current executor; nothing for a null handle |
| `Tasks.Task.SetExecutionCtx` | include/Task.hpp:246-250 | rebinds the task's promise to the given executor |
| `Tasks.Task.Drop` | include/Task.hpp:219-226 | the destructor leaves the frame's state and destroy count unchanged |
| `Tasks.RunToCompletion` | include/Task.hpp:156-160 | a task bound to `ctx` submits one resume to `ctx`; its frame is destroyed once, at completion, and not again when the Task is dropped |
| `Crotine.Task.constructor` | include/crotine.hpp:147-148 | the Task holds the handle it was given |
| `Crotine.Task.MoveFrom` | include/crotine.hpp:60-64 | the defaulted move copies the handle; the source still holds it |
| `Crotine.Task.TakeOwnership` | include/crotine.hpp:60-64 | an ownership-transferring move: the destination holds the handle and the source is null |
| `Crotine.Task.Drop` | include/crotine.hpp:150-157 | destroys the frame, once, exactly when the handle is non-null |
| `Crotine.Task.ExecuteAsync` | include/crotine.hpp:165-175 | submits exactly one job to the task's current executor; the job names the Task object itself (the lambda captures `this`), not the handle; nothing for a null handle |
| `Crotine.Task.SetExecutionCtx` | include/crotine.hpp:177-181 | rebinds the task's promise to the given executor |
| `Crotine.MoveThenDropBoth` | include/crotine.hpp:150-157 | with the defaulted move, dropping both Tasks destroys the frame twice |
| `Crotine.TakeOwnershipThenDropBoth` | include/crotine.hpp:60-64 | with an ownership-transferring move the frame is destroyed exactly once |
| `Crotine.CompleteThenAwaitThenDrop` | include/crotine.hpp:87-91 | after `co_return v` the frame stays valid, so awaiting it is ready and reads `v`; dropping the Task then destroys the frame once |
| `Pool.Xecutor.constructor` | include/Xecutor.hpp:21-25 | a new pool has no workers; its timeout is the one given, 5000 ms by default |
| `Pool.Xecutor.Execute` | include/Xecutor.hpp:27-60 | the new pool state and the chosen worker are those of `ExecuteStep`; the pool stays consistent |
| `Pool.Xecutor.Complete` | include/Xecutor.hpp:50-57 | the new pool state is that of `CompleteStep`: the worker is back at the front |
| `Pool.Xecutor.Expire` | include/Xecutor.hpp:35-41 | removes and reports the back worker; the rest of the deque is unchanged |
| `Pool.ExecuteTakesFront` | include/Xecutor.hpp:32-46 | `execute` creates one worker iff the deque is empty, always takes the front, and the deque shrinks by one or stays empty |
| `Pool.CompletionReturnsToFront` | include/Xecutor.hpp:52-56 | completion puts the same worker at the front, ahead of every idle worker, and it is no longer busy |
| `Pool.ExpiryRemovesBack` | include/Xecutor.hpp:37-40 | expiry removes exactly the back worker and leaves the rest in order |
| `Pool.ReturnedWorkerReusedNext` | include/Xecutor.hpp:44-56 | a worker just returned is the next one taken, without creating a worker |
| `Pool.StepKeepsOrder` | include/Xecutor.hpp:34-56 | no operation changes the relative order of two workers that stay in the deque |
| `Pool.StepConsistent` | include/Xecutor.hpp:27-60 | every operation keeps the ids distinct, below the counter, and each worker either idle or busy |
| `Pool.StepPopulation` | include/Xecutor.hpp:32-46 | one operation changes the number of held workers by the number it creates minus one per expiry |
| `Pool.CreatedAtMostExecutes` | include/Xecutor.hpp:32-41 | over any history, workers created are at most the `execute` calls, and held workers equal created minus expired |

## Findings

| source | as written | input that shows it | evidently intended | confidence | as-written member | corrected member |
|---|---|---|---|---|---|---|
| include/crotine.hpp:60-64 | The move constructor and move assignment are defaulted. Moving a `std::coroutine_handle` copies it, so the moved-from Task keeps the handle and its destructor (include/crotine.hpp:150-157) destroys the frame a second time. | Move-construct Task `b` from Task `a`, then let both go out of scope. | A move leaves the source with a null handle, so exactly one owner destroys the frame. | not executed; high: the defaulted move of a `coroutine_handle` is a copy | `Crotine.MoveThenDropBoth` | `Crotine.TakeOwnershipThenDropBoth` |
| include/Task.hpp:113-121 | `Task<void>::Promise::isResolved` tests `_future.valid()`. `Wait()` calls `_future.get()`, which invalidates the future, so `isResolved` answers false again. | `getPromise().return_void()` called directly on a live frame (not through `co_return`), then `Wait()`, then `co_await` on the task: it suspends and registers a continuation that never fires. | `isResolved` stays true once `return_void` has run, as `Task<T>::Promise::isResolved` does (include/Task.hpp:182-186). | not executed; high: `std::future::get` leaves the future invalid | `Tasks.AwaitAfterWaitHangs` | `Tasks.AwaitVoidAfterWait` |

The as-written behaviour is `Crotine.Task.MoveFrom`,
`Tasks.VoidPromise.IsResolvedAsWritten` and the `Tasks.VoidAwaiter` members
`AwaitReady` and `AwaitSuspend`, which use it as the source does. The
intended behaviour is `Crotine.Task.TakeOwnership`,
`Tasks.VoidPromise.IsResolved` and the `...Corrected` awaiter members.

## Left out

- Threads, `std::mutex`, `std::condition_variable` and `notify_one`: each
  method is one atomic step, so races are not modelled. This covers a
  registration racing a resolution, and an expiry racing an `execute`.
- `AutoThread` and its idle timer are not part of this model. Expiry is an
  explicit `Expire` event, enabled only while the deque is non-empty.
  `execute` copies the front `AutoThread` and moves it into the completion
  wrapper. The model assumes that both keep the worker's identity.
- `Pool.Xecutor.Execute` assigns the work to the front worker. In
  include/Xecutor.hpp:50 `setTask` is called on the local `thread` after
  the lambda's init-capture `thread = std::move(thread)` has moved from it,
  so the work goes through a moved-from `AutoThread`. The model assumes
  that this still reaches the worker, which holds only if moving an
  `AutoThread` leaves the source sharing the same worker. `AutoThread` is
  not part of this model, so whether `execute` breaks here is not decided.
- `Continuations.Run` and `contextOf`: the awaiter's closure reaches the
  waiter's executor through
  `std::coroutine_handle<PromiseBase>::from_address(...).promise()`
  (include/Task.hpp:269-270, include/crotine.hpp:200-202). That reads the
  waiter's binding only when the waiter's promise type derives from
  `PromiseBase` and is laid out where a `PromiseBase` promise would be; for
  any other awaiting coroutine C++ gives no such guarantee. The model
  assumes every waiter is a Crotine task, and `contextOf` is total.
- Running the submitted work (`func()`, `handle.resume()`) is not modelled.
  Submissions are returned as data, and a completion is an explicit
  `Complete` event.
- `Executor.hpp` is not part of this model. The lazily built default
  executor is the constant `DefaultExecutor`.
- Blocking waits (`getWaitedValue`, `Wait`) return `WouldBlock` where the
  real call would block until another thread resolves the cell.
- `Tasks.Promise.GetWaitedValue` and `Tasks.VoidPromise.Wait`: a call on a
  future that an earlier call already consumed is undefined behaviour in
  C++, since `get()` requires `valid()`. The model gives it the
  `std::future_error` with `no_state` that mainstream standard libraries
  throw (`WaitFailed(NoState)`). C++ itself promises nothing there.
- Coroutine-frame mechanics: handles are frame objects with an id. A resume
  is a job in a submission. `get_return_object` and `operator co_await` are
  modelled by building a `Task` on a frame and an `Awaiter` on a promise.
- Exception propagation through awaits: `unhandled_exception` calls
  `std::terminate` in both headers, so there are no failure continuations.
- `Tasks.Promise.UnhandledException`: models `std::terminate` only as a
  returned flag with no state change. Process termination is not modelled.
- `Tasks.VoidPromise.UnhandledException`: the same for `Task<void>`:
  `std::terminate` is a returned flag, and process termination is not
  modelled.
- Console output in include/PromiseBase.hpp.
- `utils/Function.hpp` (`RunTask`) and `utils/Context.hpp` are not part of
  this model.
- The defaulted move of include/Task.hpp's `Task` is not modelled apart from
  crotine.hpp's. Its destructor destroys nothing, so the copy is harmless
  there.
- include/Task.hpp frees a frame at completion (`suspend_never`, for
  `Task<T>` and `Task<void>` alike) while a Task or a waiter may still read
  its promise: `getPromise` in `execute_async`, `Wait`, and a later
  `await_ready` or `await_resume`. Promises are separate objects in the
  model, so such reads are not flagged. The `Task<T>` await scenarios are
  therefore stated for include/crotine.hpp, whose frames stay alive until
  the owning Task is dropped. `Tasks.WaitThenAskResolved`,
  `Tasks.AwaitAfterWaitHangs` and `Tasks.AwaitVoidAfterWait` model
  include/Task.hpp's `Task<void>`, which crotine.hpp does not have: they
  call `return_void` directly on a live promise, not through `co_return`,
  whose final suspend would free the frame before `Wait` runs.

=== FILE: common.dfy ===
/** Vocabulary shared by every part of the runtime model: identifiers for
    coroutines, executors, workers and callbacks, the work handed to an
    executor, and the errors the runtime raises. */
module Common {

  /** A coroutine frame, named by its `coroutine_handle` address. */
  type CoroutineId = nat

  /** An `Executor` object, named by its address. */
  type ExecutorId = nat

  /** A pool worker (`AutoThread`). */
  type WorkerId = nat

  /** A user callback passed to `chainOnResolved`. */
  type CallbackId = nat

  /** `Executor::getDefaultExecutor()`: the process-wide default pool, one fixed id. */
  const DefaultExecutor: ExecutorId := 0

  datatype Option<T> = None | Some(value: T)

  /** A value, or the exception a call throws instead of returning. */
  datatype Result<T> = Ok(value: T) | Failure(error: Error)

  datatype Error =
    | ValueNotSet              // std::runtime_error from getValue on an unresolved promise
    | ExecutionPoolNotSet      // std::runtime_error from get_Execution_Context::await_resume
    | PromiseAlreadySatisfied  // std::future_error from a second std::promise::set_value
    | NoState                  // get() on a future already consumed: undefined in C++; the
                               // std::future_error(no_state) that standard libraries throw

  /** A text for each error. The first two are the `what()` strings of the
      `std::runtime_error`s the headers throw themselves; `PromiseAlreadySatisfied`
      is the `std::future_error` the standard library throws, whose `what()`
      text is implementation-defined; `NoState` stands for a call the C++
      standard leaves undefined. Those two texts are descriptive labels only. */
  function Message(e: Error): string
  {
    match e
    case ValueNotSet => "Value not set"
    case ExecutionPoolNotSet => "Execution pool not set"
    case PromiseAlreadySatisfied => "Promise already satisfied"
    case NoState => "No associated state"
  }

  /** A unit of work handed to `Executor::execute`. `Resume(h)` resumes the
      coroutine whose handle was captured; `ResumeHandleOf(owner)` resumes
      whatever handle the Task object `owner` holds when the work runs. */
  datatype Job = Resume(coroutine: CoroutineId) | ResumeHandleOf(owner: object)

  /** One call `executor.execute(job)`. */
  datatype Submission = Submission(executor: ExecutorId, job: Job)

  /** How a mutating call ended: normally, or by throwing. */
  datatype Status = Returned | Threw(error: Error)

  /** The outcome of a blocking `std::future::get()`: the value, a wait that
      cannot finish until another thread resolves the promise, or an exception. */
  datatype WaitOutcome<T> = Obtained(value: T) | WouldBlock | WaitFailed(error: Error)
}

=== FILE: continuations.dfy ===
/** The continuation list of a result cell (`_continuations`, a
    `std::forward_list` in include/Task.hpp and include/crotine.hpp):
    registration prepends, resolution walks the list front to back and fires
    each entry once. This module holds the value-level specification that the
    promise classes are proved against, and the properties of it. */
module Continuations {
  import opened Common

  /** A `void()` callable stored by `chainOnResolved(std::function<void()>)`. */
  datatype Action =
    | ResumeWaiter(waiter: CoroutineId)  // the closure built by Awaiter::await_suspend
    | Call(callback: CallbackId)         // any other user callback

  /** An entry of `Task<T>::Promise::_continuations`, a `void(const T&)` callable. */
  datatype Continuation =
    | IgnoringValue(action: Action)      // chainOnResolved(void()) wraps the callable
    | WithValue(callback: CallbackId)    // chainOnResolved(void(const T&)) stores it as is

  /** What firing one entry does: submit a resume to an executor, or invoke a
      user callback (with the resolved value when it takes one). */
  datatype Event<T> = Submitted(submission: Submission) | Invoked(callback: CallbackId, argument: Option<T>)

  /** Running a `void()` callable. The awaiter's closure looks up the waiting
      coroutine's own promise and submits the resume to the executor that
      promise is bound to at this moment: `contextOf(w)`. */
  function Run<T>(a: Action, contextOf: CoroutineId -> ExecutorId): Event<T>
  {
    match a
    case ResumeWaiter(w) => Submitted(Submission(contextOf(w), Resume(w)))
    case Call(id) => Invoked(id, None)
  }

  /** Running one entry of a `Task<T>` cell with the resolved value `v`. */
  function Fire<T>(k: Continuation, v: T, contextOf: CoroutineId -> ExecutorId): Event<T>
  {
    match k
    case IgnoringValue(a) => Run(a, contextOf)
    case WithValue(id) => Invoked(id, Some(v))
  }

  /** `emplace_front`. */
  function Register<K>(ks: seq<K>, k: K): seq<K>
  {
    [k] + ks
  }

  /** Registering `regs` one after the other, oldest first. */
  function RegisterAll<K>(ks: seq<K>, regs: seq<K>): seq<K>
    decreases |regs|
  {
    if regs == [] then ks else RegisterAll(Register(ks, regs[0]), regs[1..])
  }

  /** The events of the range-for over the list, in list order. */
  function Notify<K, E>(ks: seq<K>, fire: K -> E): seq<E>
  {
    if ks == [] then [] else Notify(ks[..|ks| - 1], fire) + [fire(ks[|ks| - 1])]
  }

  /** Resolution of a `Task<T>` cell with `v`. */
  function FireAll<T>(ks: seq<Continuation>, v: T, contextOf: CoroutineId -> ExecutorId): seq<Event<T>>
  {
    Notify(ks, (k: Continuation) => Fire(k, v, contextOf))
  }

  /** Resolution of a `Task<void>` cell. */
  function RunAll(actions: seq<Action>, contextOf: CoroutineId -> ExecutorId): seq<Event<()>>
  {
    Notify(actions, (a: Action) => Run(a, contextOf))
  }

  /** The list after a run of registrations holds them newest first (the
      i-th entry is the i-th registration counted back from the last), and
      behind them, unchanged, whatever was there before. */
  lemma {:induction false} RegisterAllPrepends<K>(ks: seq<K>, regs: seq<K>)
    ensures |RegisterAll(ks, regs)| == |regs| + |ks|
    ensures forall i :: 0 <= i < |regs| ==> RegisterAll(ks, regs)[i] == regs[|regs| - 1 - i]
    ensures RegisterAll(ks, regs)[|regs|..] == ks
    decreases |regs|
  {
    if regs != [] {
      var rest := regs[1..];
      var r := RegisterAll(Register(ks, regs[0]), rest);
      RegisterAllPrepends(Register(ks, regs[0]), rest);
      assert r[|rest|..] == [regs[0]] + ks;
      assert r[|regs|..] == r[|rest|..][1..];
      forall i | 0 <= i < |regs|
        ensures r[i] == regs[|regs| - 1 - i]
      {
        if i < |rest| {
          assert r[i] == rest[|rest| - 1 - i];
        } else {
          assert r[i] == r[|rest|..][0];
        }
      }
    }
  }

  /** Firing produces one event per entry, the i-th event from the i-th entry. */
  lemma {:induction false} NotifyAt<K, E>(ks: seq<K>, fire: K -> E, i: nat)
    requires i < |ks|
    ensures |Notify(ks, fire)| == |ks|
    ensures Notify(ks, fire)[i] == fire(ks[i])
    decreases |ks|
  {
    NotifyLength(ks[..|ks| - 1], fire);
    if i < |ks| - 1 {
      NotifyAt(ks[..|ks| - 1], fire, i);
    }
  }

  lemma {:induction false} NotifyLength<K, E>(ks: seq<K>, fire: K -> E)
    ensures |Notify(ks, fire)| == |ks|
    decreases |ks|
  {
    if ks != [] {
      NotifyLength(ks[..|ks| - 1], fire);
    }
  }

  /** Resolution after the registrations `regs` (oldest first) on an empty
      list fires every one of them exactly once, most recently registered
      first. */
  lemma ResolutionFiresNewestFirst<K, E>(regs: seq<K>, fire: K -> E)
    ensures |Notify(RegisterAll([], regs), fire)| == |regs|
    ensures forall i :: 0 <= i < |regs| ==> Notify(RegisterAll([], regs), fire)[i] == fire(regs[|regs| - 1 - i])
  {
    RegisterAllPrepends([], regs);
    NotifyLength(RegisterAll([], regs), fire);
    forall i | 0 <= i < |regs|
      ensures Notify(RegisterAll([], regs), fire)[i] == fire(regs[|regs| - 1 - i])
    {
      NotifyAt(RegisterAll([], regs), fire, i);
    }
  }

  /** The i-th event of a `Task<T>` resolution comes from the i-th entry. */
  lemma FireAllAt<T>(ks: seq<Continuation>, v: T, contextOf: CoroutineId -> ExecutorId, i: nat)
    requires i < |ks|
    ensures |FireAll(ks, v, contextOf)| == |ks|
    ensures FireAll(ks, v, contextOf)[i] == Fire(ks[i], v, contextOf)
  {
    NotifyAt(ks, (k: Continuation) => Fire(k, v, contextOf), i);
  }

  /** Entries of `ks` that resume waiter `w`. */
  function Waiting(ks: seq<Continuation>, w: CoroutineId): nat
  {
    if ks == [] then 0
    else Waiting(ks[..|ks| - 1], w) + (if ks[|ks| - 1] == IgnoringValue(ResumeWaiter(w)) then 1 else 0)
  }

  /** Submissions in `es` that resume coroutine `w`. */
  function Resumes<T>(es: seq<Event<T>>, w: CoroutineId): nat
  {
    if es == [] then 0
    else Resumes(es[..|es| - 1], w) + (if es[|es| - 1].Submitted? && es[|es| - 1].submission.job == Resume(w) then 1 else 0)
  }

  /** Resolution resumes each waiter exactly as many times as it is registered
      (once per suspended `co_await`), and every such resume goes to the
      executor the waiter itself is bound to, whatever the resolved value. */
  lemma {:induction false} WaiterResumedOnItsOwnExecutor<T>(ks: seq<Continuation>, v: T, contextOf: CoroutineId -> ExecutorId, w: CoroutineId)
    ensures Resumes(FireAll(ks, v, contextOf), w) == Waiting(ks, w)
    ensures forall e :: e in FireAll(ks, v, contextOf) && e.Submitted? && e.submission.job == Resume(w) ==>
              e.submission.executor == contextOf(w)
    decreases |ks|
  {
    if ks != [] {
      var init := ks[..|ks| - 1];
      WaiterResumedOnItsOwnExecutor(init, v, contextOf, w);
      assert FireAll(ks, v, contextOf) == FireAll(init, v, contextOf) + [Fire(ks[|ks| - 1], v, contextOf)];
    }
  }
}

=== FILE: coroutines.dfy ===
/** Coroutine frames as far as the two Task headers touch them: a frame has a
    handle (its id), carries the promise's executor binding, and is either
    suspended, parked at its final suspend point, or destroyed. The two
    headers differ in what happens when the body finishes: include/Task.hpp
    returns `std::suspend_never` from `final_suspend`, so the frame frees
    itself; include/crotine.hpp returns `std::suspend_always`, so the frame
    stays valid until someone destroys it through its handle. */
module Coroutines {
  import opened Common
  import opened ExecutionContext

  datatype FinalSuspend = SuspendNever | SuspendAlways

  datatype FrameState =
    | Suspended  // created suspended (initial_suspend is suspend_always) or waiting at a co_await
    | Finished   // suspended at its final suspend point: the promise is still readable
    | Destroyed  // freed: neither the promise nor the handle may be used

  /** Where a frame ends up once its body has returned and `final_suspend`'s
      awaitable has been applied. */
  function AfterFinalSuspend(policy: FinalSuspend): FrameState
  {
    match policy
    case SuspendNever => Destroyed
    case SuspendAlways => Finished
  }

  /** A coroutine frame. `destroyCount` counts how often it has been freed;
      more than once is a double free. */
  class Frame {
    const id: CoroutineId
    const context: PromiseBase
    var state: FrameState
    var destroyCount: nat

    constructor (id: CoroutineId, context: PromiseBase)
      ensures this.id == id && this.context == context
      ensures state == Suspended && destroyCount == 0
    {
      this.id := id;
      this.context := context;
      state := Suspended;
      destroyCount := 0;
    }

    /** The body has returned (after `return_value`/`return_void`) and
        `final_suspend` runs: a `suspend_never` frame frees itself, a
        `suspend_always` frame parks, still valid. */
    method ReachFinalSuspend(policy: FinalSuspend)
      requires state == Suspended
      modifies this
      ensures state == AfterFinalSuspend(policy)
      ensures state != Destroyed <==> policy == SuspendAlways
      ensures destroyCount == old(destroyCount) + (if policy == SuspendNever then 1 else 0)
    {
      state := AfterFinalSuspend(policy);
      if policy == SuspendNever {
        destroyCount := destroyCount + 1;
      }
    }

    /** `coroutine_handle::destroy()`. */
    method Destroy()
      modifies this
      ensures state == Destroyed
      ensures destroyCount == old(destroyCount) + 1
    {
      state := Destroyed;
      destroyCount := destroyCount + 1;
    }
  }
}

=== FILE: crotine.dfy ===
/** include/crotine.hpp: the alternate Task header. Its promise
    (`return_value`, `isResolved`, `getValue`, `chainOnResolved`) and its
    awaiter are the same code as in include/Task.hpp and are modelled by
    `Tasks.Promise` and `Tasks.Awaiter`. What differs is the lifecycle: the
    frame parks at its final suspend point, the Task owns it and destroys it
    in its destructor, and `execute_async` captures the Task object rather
    than the handle. */
module Crotine {
  import opened Common
  import opened Continuations
  import opened ExecutionContext
  import opened Coroutines
  import opened Tasks

  /** `Task<T>::Promise::final_suspend` returns `std::suspend_always`. */
  const CrotineFinalSuspend: FinalSuspend := SuspendAlways

  /** The owning `Task<T>` of include/crotine.hpp. */
  class Task {
    var handle: Frame?

    constructor (handle: Frame?)
      ensures this.handle == handle
    {
      this.handle := handle;
    }

    /** The defaulted move constructor / move assignment: a
        `coroutine_handle` is a plain pointer, so it is copied and the source
        keeps it too. */
    method MoveFrom(other: Task)
      modifies this
      ensures handle == old(other.handle)
      ensures other.handle == old(other.handle)
    {
      handle := other.handle;
    }

    /** A move that transfers ownership: the source is left with a null
        handle, so only the destination will destroy the frame. */
    method TakeOwnership(other: Task)
      requires other != this
      modifies this, other
      ensures handle == old(other.handle)
      ensures other.handle == null
    {
      handle := other.handle;
      other.handle := null;
    }

    /** `~Task`: destroys the frame exactly when the handle is non-null. */
    method Drop()
      modifies if handle == null then {} else {handle}
      ensures handle != null ==> handle.state == Destroyed && handle.destroyCount == old(handle.destroyCount) + 1
    {
      if handle != null {
        handle.Destroy();
      }
    }

    /** `execute_async`: one job, submitted to the executor the promise is
        bound to now, that resumes whatever handle this Task object holds
        when the job runs; nothing for a null handle. */
    method ExecuteAsync() returns (submitted: seq<Submission>)
      ensures handle == null ==> submitted == []
      ensures handle != null ==> submitted == [Submission(handle.context.GetExecutionCtx(), ResumeHandleOf(this))]
    {
      if handle == null {
        submitted := [];
      } else {
        submitted := [Submission(handle.context.GetExecutionCtx(), ResumeHandleOf(this))];
      }
    }

    /** `set_execution_ctx` (the handle must be non-null). */
    method SetExecutionCtx(ctx: ExecutorId)
      requires handle != null
      modifies handle.context
      ensures handle.context.GetExecutionCtx() == ctx
    {
      handle.context.SetExecutionCtx(ctx);
    }
  }

  /** Moving a Task with the defaulted move and then dropping both the
      moved-from and the moved-to Task: the frame is destroyed twice. */
  method MoveThenDropBoth(id: CoroutineId) returns (destroyCount: nat)
    ensures destroyCount == 2
  {
    var p := new PromiseBase();
    var frame := new Frame(id, p);
    var source := new Task(frame);
    var target := new Task(null);
    target.MoveFrom(source);
    target.Drop();
    source.Drop();
    destroyCount := frame.destroyCount;
  }

  /** The same sequence with an ownership-transferring move: the frame is
      destroyed exactly once. */
  method TakeOwnershipThenDropBoth(id: CoroutineId) returns (destroyCount: nat)
    ensures destroyCount == 1
  {
    var p := new PromiseBase();
    var frame := new Frame(id, p);
    var source := new Task(frame);
    var target := new Task(null);
    target.TakeOwnership(source);
    target.Drop();
    source.Drop();
    destroyCount := frame.destroyCount;
  }

  /** `co_await` on a task whose cell is still unresolved, followed by the
      awaited body's `co_return v`: the waiter suspends, and resolution
      submits exactly one resume of the waiter, to the executor the waiter
      is bound to at that moment, even when the awaited task is bound to a
      different executor. The awaited frame then parks at its final
      suspend point, so the resumed waiter reads `v` from a live promise. */
  method AwaitPendingThenResolve<T>(v: T, id: CoroutineId, waiter: CoroutineId, awaitedExecutor: ExecutorId, contextOf: CoroutineId -> ExecutorId)
    returns (ready: bool, fired: seq<Event<T>>, stateAtRead: FrameState, result: Result<T>)
    ensures !ready
    ensures fired == [Submitted(Submission(contextOf(waiter), Resume(waiter)))]
    ensures stateAtRead == Finished && result == Ok(v)
  {
    var promise := new Promise<T>();
    var frame := new Frame(id, promise.base);
    var task := new Task(frame);
    task.SetExecutionCtx(awaitedExecutor);
    var awaiter := new Awaiter(promise);
    ready := awaiter.AwaitReady();
    if !ready {
      awaiter.AwaitSuspend(waiter);
    }
    var k := IgnoringValue(ResumeWaiter(waiter));
    assert promise.continuations == [k];
    var status;
    fired, status := promise.ReturnValue(v, contextOf);
    FireAllAt([k], v, contextOf, 0);
    frame.ReachFinalSuspend(CrotineFinalSuspend);
    stateAtRead := frame.state;
    result := awaiter.AwaitResume();
  }

  /** `co_await` on a task that has already completed: ready at once,
      nothing is registered or submitted, and the value is read from the
      parked frame's promise. The blocking `getWaitedValue` agrees with it. */
  method AwaitResolved<T>(v: T, id: CoroutineId, waiter: CoroutineId, contextOf: CoroutineId -> ExecutorId)
    returns (ready: bool, registered: nat, stateAtRead: FrameState, result: Result<T>, waited: WaitOutcome<T>)
    ensures ready && registered == 0
    ensures stateAtRead == Finished
    ensures result == Ok(v) && waited == Obtained(v)
  {
    var promise := new Promise<T>();
    var frame := new Frame(id, promise.base);
    var fired, status := promise.ReturnValue(v, contextOf);
    frame.ReachFinalSuspend(CrotineFinalSuspend);
    var awaiter := new Awaiter(promise);
    ready := awaiter.AwaitReady();
    awaiter.AwaitSuspend(waiter);
    registered := |promise.continuations|;
    stateAtRead := frame.state;
    result := awaiter.AwaitResume();
    waited := promise.GetWaitedValue();
  }

  /** The lifecycle of a crotine.hpp task: after `co_return v` the frame
      parks at its final suspend point, still valid, so a later `co_await`
      is ready at once and reads `v` from the live promise; dropping the
      owning Task then destroys the frame, once. */
  method CompleteThenAwaitThenDrop<T>(id: CoroutineId, v: T, contextOf: CoroutineId -> ExecutorId)
    returns (stateAtCompletion: FrameState, ready: bool, result: Result<T>, stateAfterDrop: FrameState, destroyCount: nat)
    ensures stateAtCompletion == Finished
    ensures ready && result == Ok(v)
    ensures stateAfterDrop == Destroyed && destroyCount == 1
  {
    var promise := new Promise<T>();
    var frame := new Frame(id, promise.base);
    var task := new Task(frame);
    var fired, status := promise.ReturnValue(v, contextOf);
    frame.ReachFinalSuspend(CrotineFinalSuspend);
    stateAtCompletion := frame.state;
    var awaiter := new Awaiter(promise);
    ready := awaiter.AwaitReady();
    result := awaiter.AwaitResume();
    task.Drop();
    stateAfterDrop := frame.state;
    destroyCount := frame.destroyCount;
  }
}

=== FILE: execution_context.dfy ===
/** include/PromiseBase.hpp: the executor every coroutine promise is bound to,
    and the zero-hop awaitable `get_Execution_Context` that hands a running
    coroutine its own binding. */
module ExecutionContext {
  import opened Common

  /** `PromiseBase`: a rebindable reference to an executor. */
  class PromiseBase {
    var executionContext: ExecutorId

    /** A new promise is bound to the process-wide default executor. */
    constructor ()
      ensures executionContext == DefaultExecutor
    {
      executionContext := DefaultExecutor;
    }

    /** `set_execution_ctx`: the latest binding replaces any earlier one. */
    method SetExecutionCtx(ctx: ExecutorId)
      modifies this
      ensures GetExecutionCtx() == ctx
    {
      executionContext := ctx;
    }

    /** `get_execution_ctx`. */
    function GetExecutionCtx(): ExecutorId
      reads this
    {
      executionContext
    }
  }

  /** `get_Execution_Context<T>`: an awaitable holding the executor it captured, if any. */
  class GetExecutionContext {
    var captured: Option<ExecutorId>

    constructor ()
      ensures captured == None
    {
      captured := None;
    }

    /** `await_ready`: ready exactly when resuming now would yield an
        executor rather than throw. */
    function AwaitReady(): (ready: bool)
      reads this
      ensures ready <==> AwaitResume().Ok?
    {
      captured.Some?
    }

    /** `await_suspend(handle)`: capture the awaiting coroutine's current
        binding, then resume that coroutine at once on the same thread
        (`resumedInline`) instead of submitting it to any executor. */
    method AwaitSuspend(caller: CoroutineId, callerPromise: PromiseBase) returns (resumedInline: CoroutineId)
      modifies this
      ensures captured == Some(callerPromise.GetExecutionCtx())
      ensures resumedInline == caller
    {
      captured := Some(callerPromise.GetExecutionCtx());
      resumedInline := caller;
    }

    /** `await_resume`: the captured executor, or "Execution pool not set". */
    function AwaitResume(): (r: Result<ExecutorId>)
      reads this
      ensures r.Failure? <==> captured == None
      ensures r.Failure? ==> r.error == ExecutionPoolNotSet && Message(r.error) == "Execution pool not set"
      ensures r.Ok? ==> captured == Some(r.value)
    {
      if captured.None? then Failure(ExecutionPoolNotSet) else Ok(captured.value)
    }
  }

  /** The binding `get_execution_ctx` reports over a promise's life: the
      default executor at first, then whichever executor was set last. */
  method BindingFollowsLastSet(first: ExecutorId, second: ExecutorId)
    returns (initial: ExecutorId, afterFirst: ExecutorId, afterSecond: ExecutorId)
    ensures initial == DefaultExecutor
    ensures afterFirst == first && afterSecond == second
  {
    var p := new PromiseBase();
    initial := p.GetExecutionCtx();
    p.SetExecutionCtx(first);
    afterFirst := p.GetExecutionCtx();
    p.SetExecutionCtx(second);
    afterSecond := p.GetExecutionCtx();
  }

  /** `co_await get_Execution_Context{}` inside a coroutine `caller` whose
      promise is `callerPromise`, as the compiler expands it: a fresh awaitable
      is never ready, so it is suspended, which captures the binding and
      resumes the caller inline; the resume step then yields that binding. */
  method CoAwaitExecutionContext(caller: CoroutineId, callerPromise: PromiseBase)
    returns (ready: bool, resumedInline: Option<CoroutineId>, r: Result<ExecutorId>)
    ensures !ready
    ensures resumedInline == Some(caller)
    ensures r == Ok(callerPromise.GetExecutionCtx())
  {
    var awaitable := new GetExecutionContext();
    ready := awaitable.AwaitReady();
    resumedInline := None;
    if !ready {
      var h := awaitable.AwaitSuspend(caller, callerPromise);
      resumedInline := Some(h);
    }
    r := awaitable.AwaitResume();
  }
}

=== FILE: pool.dfy ===
/** include/Xecutor.hpp: the pool executor. Its `threads` deque holds the idle
    workers, most recently returned at the front. `execute` creates a worker
    only when the deque is empty, always takes the front worker, and hands it
    the work wrapped so that on completion the worker goes back to the
    front; a worker that stays idle past the timeout runs the expiry hook,
    which pops the back. Each of these is one atomic step under the pool
    mutex. */
module Pool {
  import opened Common

  /** The timeout `Xecutor` uses when none is given, in milliseconds. */
  const DefaultTimeoutMs: nat := 5000

  /** The pool's bookkeeping: `idle` is the `threads` deque, `busy` the
      workers currently running a unit of work (and which one), `nextId` the
      id the next created worker gets (so also the number created so far). */
  datatype PoolState = PoolState(idle: seq<WorkerId>, busy: map<WorkerId, Job>, nextId: WorkerId)

  ghost predicate Distinct(s: seq<WorkerId>)
  {
    forall i, j :: 0 <= i < j < |s| ==> s[i] != s[j]
  }

  /** Every worker is created once, is idle or busy but not both, and sits in
      the deque at most once. */
  ghost predicate Consistent(p: PoolState)
  {
    && Distinct(p.idle)
    && (forall i :: 0 <= i < |p.idle| ==> p.idle[i] !in p.busy && p.idle[i] < p.nextId)
    && (forall w :: w in p.busy ==> w < p.nextId)
  }

  /** The result of `execute`: the new state, the worker that runs the work,
      and whether that worker was created by this call. */
  datatype Taken = Taken(pool: PoolState, worker: WorkerId, created: bool)

  /** `execute(work)`: on an empty deque, `emplace_back` a fresh worker; then
      take the front worker, `pop_front`, and assign it the work. */
  function ExecuteStep(p: PoolState, work: Job): Taken
  {
    var created := p.idle == [];
    var threads := if created then p.idle + [p.nextId] else p.idle;
    var nextId := if created then p.nextId + 1 else p.nextId;
    Taken(PoolState(threads[1..], p.busy[threads[0] := work], nextId), threads[0], created)
  }

  /** The completion wrapper: after the work, `emplace_front` the same worker. */
  function CompleteStep(p: PoolState, w: WorkerId): PoolState
    requires w in p.busy
  {
    PoolState([w] + p.idle, p.busy - {w}, p.nextId)
  }

  /** The expiry hook: `pop_back`. */
  function ExpireStep(p: PoolState): PoolState
    requires p.idle != []
  {
    PoolState(p.idle[..|p.idle| - 1], p.busy, p.nextId)
  }

  /** The events a pool goes through. */
  datatype PoolEvent = Execute(work: Job) | Completion(worker: WorkerId) | Expiry

  /** Whether the event can happen in state `p`: only a busy worker
      completes, and only an idle worker (so a non-empty deque) expires. */
  predicate Enabled(p: PoolState, e: PoolEvent)
  {
    match e
    case Execute(_) => true
    case Completion(w) => w in p.busy
    case Expiry => p.idle != []
  }

  function Step(p: PoolState, e: PoolEvent): PoolState
    requires Enabled(p, e)
  {
    match e
    case Execute(work) => ExecuteStep(p, work).pool
    case Completion(w) => CompleteStep(p, w)
    case Expiry => ExpireStep(p)
  }

  predicate Possible(p: PoolState, es: seq<PoolEvent>)
    decreases |es|
  {
    es == [] || (Enabled(p, es[0]) && Possible(Step(p, es[0]), es[1..]))
  }

  function Run(p: PoolState, es: seq<PoolEvent>): PoolState
    requires Possible(p, es)
    decreases |es|
  {
    if es == [] then p else Run(Step(p, es[0]), es[1..])
  }

  function Executes(es: seq<PoolEvent>): nat
  {
    if es == [] then 0 else (if es[0].Execute? then 1 else 0) + Executes(es[1..])
  }

  function Expiries(es: seq<PoolEvent>): nat
  {
    if es == [] then 0 else (if es[0].Expiry? then 1 else 0) + Expiries(es[1..])
  }

  /** `execute` creates exactly one worker when the deque is empty and none
      otherwise; it always takes the front (on an empty deque, the worker it
      just created) and the deque shrinks by one, or stays empty. */
  lemma ExecuteTakesFront(p: PoolState, work: Job)
    requires Consistent(p)
    ensures var t := ExecuteStep(p, work);
      && Consistent(t.pool)
      && (t.created <==> p.idle == [])
      && t.pool.nextId == p.nextId + (if t.created then 1 else 0)
      && t.worker == (if t.created then p.nextId else p.idle[0])
      && t.worker !in p.busy && t.pool.busy == p.busy[t.worker := work]
      && (t.created ==> t.pool.idle == [])
      && (!t.created ==> t.pool.idle == p.idle[1..] && |t.pool.idle| == |p.idle| - 1)
  {
  }

  /** Completion puts the worker back at the front, ahead of every worker
      that was idle before, and keeps the pool consistent. */
  lemma CompletionReturnsToFront(p: PoolState, w: WorkerId)
    requires Consistent(p) && w in p.busy
    ensures Consistent(CompleteStep(p, w))
    ensures CompleteStep(p, w).idle == [w] + p.idle && w !in CompleteStep(p, w).busy
  {
  }

  /** Expiry removes exactly the back worker, the least recently returned one. */
  lemma ExpiryRemovesBack(p: PoolState)
    requires Consistent(p) && p.idle != []
    ensures Consistent(ExpireStep(p))
    ensures ExpireStep(p).idle + [p.idle[|p.idle| - 1]] == p.idle
    ensures p.idle[|p.idle| - 1] !in ExpireStep(p).idle
  {
  }

  /** A worker that has just been returned is the one the next `execute`
      takes, and no worker is created for it. */
  lemma ReturnedWorkerReusedNext(p: PoolState, w: WorkerId, work: Job)
    requires Consistent(p) && w in p.busy
    ensures ExecuteStep(CompleteStep(p, w), work).worker == w
    ensures !ExecuteStep(CompleteStep(p, w), work).created
    ensures ExecuteStep(CompleteStep(p, w), work).pool.idle == p.idle
  {
  }

  /** `a` stands in front of `b` in the deque. */
  ghost predicate Before(s: seq<WorkerId>, a: WorkerId, b: WorkerId)
  {
    exists i, j :: 0 <= i < j < |s| && s[i] == a && s[j] == b
  }

  /** No step reorders the workers it does not touch: two workers in the
      deque before and after a step keep their relative order. */
  lemma {:induction false} StepKeepsOrder(p: PoolState, e: PoolEvent, a: WorkerId, b: WorkerId)
    requires Consistent(p) && Enabled(p, e)
    requires Before(p.idle, a, b)
    requires a in Step(p, e).idle && b in Step(p, e).idle
    ensures Before(Step(p, e).idle, a, b)
  {
    var i, j :| 0 <= i < j < |p.idle| && p.idle[i] == a && p.idle[j] == b;
    var q := Step(p, e).idle;
    match e
    case Execute(work) =>
      // the deque loses its front: a is found one place earlier, so i > 0
      assert p.idle != [] && q == p.idle[1..];
      var k :| 0 <= k < |q| && q[k] == a;
      assert p.idle[k + 1] == a;
      assert q[i - 1] == a && q[j - 1] == b;
    case Completion(w) =>
      assert q[i + 1] == a && q[j + 1] == b;
    case Expiry =>
      // the deque loses its back: b is found at the same place, so j is not last
      assert q == p.idle[..|p.idle| - 1];
      var k :| 0 <= k < |q| && q[k] == b;
      assert p.idle[k] == b;
      assert q[i] == a && q[j] == b;
  }

  /** Every step keeps the pool consistent. */
  lemma StepConsistent(p: PoolState, e: PoolEvent)
    requires Consistent(p) && Enabled(p, e)
    ensures Consistent(Step(p, e))
  {
    match e
    case Execute(work) => ExecuteTakesFront(p, work);
    case Completion(w) => CompletionReturnsToFront(p, w);
    case Expiry => ExpiryRemovesBack(p);
  }

  /** Over any history, the pool creates at most one worker per `execute`
      call, and the workers it holds (idle or busy) are exactly those
      created minus one per expiry. */
  lemma {:induction false} CreatedAtMostExecutes(p: PoolState, es: seq<PoolEvent>)
    requires Consistent(p) && Possible(p, es)
    ensures Consistent(Run(p, es))
    ensures Run(p, es).nextId <= p.nextId + Executes(es)
    ensures |Run(p, es).idle| + |Run(p, es).busy| + Expiries(es) == |p.idle| + |p.busy| + (Run(p, es).nextId - p.nextId)
    decreases |es|
  {
    if es != [] {
      var q := Step(p, es[0]);
      StepConsistent(p, es[0]);
      StepPopulation(p, es[0]);
      CreatedAtMostExecutes(q, es[1..]);
    }
  }

  /** One step changes the number of workers held by the number created
      minus the number expired. */
  lemma StepPopulation(p: PoolState, e: PoolEvent)
    requires Consistent(p) && Enabled(p, e)
    ensures |Step(p, e).idle| + |Step(p, e).busy| + (if e.Expiry? then 1 else 0)
            == |p.idle| + |p.busy| + (Step(p, e).nextId - p.nextId)
    ensures Step(p, e).nextId - p.nextId == (if e.Execute? && p.idle == [] then 1 else 0)
  {
    match e
    case Execute(work) =>
      var t := ExecuteStep(p, work);
      ExecuteTakesFront(p, work);
      assert t.worker !in p.busy;
      assert |p.busy[t.worker := work]| == |p.busy| + 1;
    case Completion(w) =>
      assert |p.busy - {w}| == |p.busy| - 1;
    case Expiry =>
  }

  /** `Xecutor`: the deque of idle workers, the workers running work, a
      fresh-id counter and the idle timeout handed to each new worker. */
  class Xecutor {
    var threads: seq<WorkerId>
    ghost var busy: map<WorkerId, Job>
    var nextId: WorkerId
    const timeout: nat

    ghost function State(): PoolState
      reads this
    {
      PoolState(threads, busy, nextId)
    }

    ghost predicate Valid()
      reads this
    {
      Consistent(State())
    }

    /** `Xecutor(timeout = 5000ms)`: no workers yet. */
    constructor (timeout: nat := DefaultTimeoutMs)
      ensures Valid() && State() == PoolState([], map[], 0)
      ensures this.timeout == timeout
    {
      threads := [];
      busy := map[];
      nextId := 0;
      this.timeout := timeout;
    }

    /** `execute(work)`: returns the worker the work is assigned to. */
    method Execute(work: Job) returns (worker: WorkerId)
      requires Valid()
      modifies this
      ensures Valid()
      ensures State() == ExecuteStep(old(State()), work).pool
      ensures worker == ExecuteStep(old(State()), work).worker
    {
      ExecuteTakesFront(State(), work);
      if threads == [] {
        threads := threads + [nextId];
        nextId := nextId + 1;
      }
      worker := threads[0];
      threads := threads[1..];
      busy := busy[worker := work];
    }

    /** The completion wrapper of a worker `w` that `execute` handed work to. */
    method Complete(w: WorkerId)
      requires Valid() && w in busy
      modifies this
      ensures Valid()
      ensures State() == CompleteStep(old(State()), w)
    {
      CompletionReturnsToFront(State(), w);
      threads := [w] + threads;
      busy := busy - {w};
    }

    /** The expiry hook of an idle worker: pops the back of the deque and
        returns the worker removed. */
    method Expire() returns (removed: WorkerId)
      requires Valid() && threads != []
      modifies this
      ensures Valid()
      ensures State() == ExpireStep(old(State()))
      ensures removed == old(threads)[|old(threads)| - 1]
    {
      ExpiryRemovesBack(State());
      removed := threads[|threads| - 1];
      threads := threads[..|threads| - 1];
    }
  }
}

=== FILE: tasks.dfy ===
/** include/Task.hpp: the result cell of a `Task<T>` (`Task<T>::Promise`), the
    `Task<void>` specialisation, the awaiter built by `co_await task`, and the
    non-owning `Task` handle. Each method is one atomic step; what a step hands
    to an executor or a callback is returned as a sequence of events. */
module Tasks {
  import opened Common
  import opened Continuations
  import opened ExecutionContext
  import opened Coroutines

  /** `final_suspend` of both promises of include/Task.hpp returns `std::suspend_never`. */
  const TaskHppFinalSuspend: FinalSuspend := SuspendNever

  /** `Task<T>::Promise`: the optional value `_value`, the shared state of the
      `std::promise`/`std::future` pair (`shared`: what `set_value` stored;
      `futureValid`: `_future.valid()`), and the continuation list. */
  class Promise<T> {
    const base: PromiseBase
    var value: Option<T>
    var shared: Option<T>
    var futureValid: bool
    var continuations: seq<Continuation>

    /** `_value` is assigned right before every `set_value`, so one is present
        exactly when the other is; the future is consumed only by a
        `getWaitedValue` that obtained the stored value. */
    ghost predicate Valid()
      reads this
    {
      && (value.Some? <==> shared.Some?)
      && (!futureValid ==> shared.Some?)
    }

    /** A new promise is unresolved, has no continuations, a future not yet
        consumed, and the default executor binding of `PromiseBase`. */
    constructor ()
      ensures Valid() && fresh(base) && base.GetExecutionCtx() == DefaultExecutor
      ensures !IsResolved() && shared == None && futureValid && continuations == []
    {
      base := new PromiseBase();
      value := None;
      shared := None;
      futureValid := true;
      continuations := [];
    }

    /** `isResolved`: `_value` is set, which in a consistent cell is exactly
        when `set_value` has run, so the blocking future has its value too. */
    function IsResolved(): (resolved: bool)
      reads this
      ensures Valid() ==> (resolved <==> shared.Some?)
    {
      value.Some?
    }

    /** `getValue`: the stored value, or "Value not set" before resolution. */
    function GetValue(): (r: Result<T>)
      reads this
      ensures r.Ok? <==> IsResolved()
      ensures r.Ok? ==> value == Some(r.value)
      ensures r.Failure? ==> r.error == ValueNotSet && Message(r.error) == "Value not set"
    {
      if value.None? then Failure(ValueNotSet) else Ok(value.value)
    }

    /** `return_value(v)`: store `v`, satisfy the std::promise, then run the
        continuation list front to back. A second call still overwrites
        `_value` but `set_value` throws before any continuation runs. The list
        is not cleared. */
    method ReturnValue(v: T, contextOf: CoroutineId -> ExecutorId) returns (fired: seq<Event<T>>, status: Status)
      requires Valid()
      modifies this
      ensures Valid() && IsResolved() && GetValue() == Ok(v)
      ensures continuations == old(continuations) && futureValid == old(futureValid)
      ensures old(shared) == None ==> status == Returned && shared == Some(v) && fired == FireAll(old(continuations), v, contextOf)
      ensures old(shared) != None ==> status == Threw(PromiseAlreadySatisfied) && shared == old(shared) && fired == []
    {
      value := Some(v);
      if shared.Some? {
        status := Threw(PromiseAlreadySatisfied);
        fired := [];
        return;
      }
      shared := Some(v);
      status := Returned;
      fired := [];
      var i := 0;
      while i < |continuations|
        invariant 0 <= i <= |continuations|
        invariant fired == FireAll(continuations[..i], v, contextOf)
      {
        assert continuations[..i + 1][..i] == continuations[..i];
        fired := fired + [Fire(continuations[i], v, contextOf)];
        i := i + 1;
      }
      assert continuations[..|continuations|] == continuations;
    }

    /** `unhandled_exception`: `std::terminate()`. Nothing is resolved and no
        continuation runs (the method changes nothing). */
    method UnhandledException() returns (terminated: bool)
      ensures terminated
    {
      terminated := true;
    }

    /** `chainOnResolved(std::function<void()>)`: wrapped so that it ignores
        the value, then put at the front. */
    method ChainOnResolved(a: Action)
      requires Valid()
      modifies this
      ensures Valid()
      ensures continuations == Register(old(continuations), IgnoringValue(a))
      ensures value == old(value) && shared == old(shared) && futureValid == old(futureValid)
    {
      continuations := [IgnoringValue(a)] + continuations;
    }

    /** `chainOnResolved(std::function<void(const T&)>)`: put at the front as is. */
    method ChainOnResolvedWithValue(callback: CallbackId)
      requires Valid()
      modifies this
      ensures Valid()
      ensures continuations == Register(old(continuations), WithValue(callback))
      ensures value == old(value) && shared == old(shared) && futureValid == old(futureValid)
    {
      continuations := [WithValue(callback)] + continuations;
    }

    /** `getWaitedValue`: `_future.get()`. It blocks until the promise is
        satisfied, yields the value `set_value` stored, and leaves the future
        invalid. A second call is undefined in C++; it is modelled as the
        `no_state` error that standard libraries throw. */
    method GetWaitedValue() returns (r: WaitOutcome<T>)
      requires Valid()
      modifies this
      ensures Valid()
      ensures value == old(value) && shared == old(shared) && continuations == old(continuations)
      ensures !old(futureValid) ==> r == WaitFailed(NoState) && !futureValid
      ensures old(futureValid) && old(shared) == None ==> r == WouldBlock && futureValid
      ensures old(futureValid) && old(shared) != None ==> r == Obtained(old(shared).value) && !futureValid
    {
      if !futureValid {
        r := WaitFailed(NoState);
      } else if shared.None? {
        r := WouldBlock;
      } else {
        r := Obtained(shared.value);
        futureValid := false;
      }
    }
  }

  /** `Task<T>::Awaiter`: borrows the awaited promise. */
  class Awaiter<T> {
    const promise: Promise<T>

    constructor (promise: Promise<T>)
      ensures this.promise == promise
    {
      this.promise := promise;
    }

    /** `await_ready`: ready exactly when the awaited cell is resolved. */
    function AwaitReady(): (ready: bool)
      reads promise
      ensures ready <==> promise.GetValue().Ok?
    {
      promise.IsResolved()
    }

    /** `await_suspend(waiter)`: on an unresolved cell, register (through the
        `void()` overload) a closure that resumes the waiter on the waiter's
        own executor; on a resolved cell, do nothing. */
    method AwaitSuspend(waiter: CoroutineId)
      requires promise.Valid()
      modifies promise
      ensures promise.Valid()
      ensures promise.value == old(promise.value) && promise.shared == old(promise.shared)
      ensures promise.futureValid == old(promise.futureValid)
      ensures old(promise.IsResolved()) ==> promise.continuations == old(promise.continuations)
      ensures !old(promise.IsResolved()) ==>
                promise.continuations == Register(old(promise.continuations), IgnoringValue(ResumeWaiter(waiter)))
    {
      if !promise.IsResolved() {
        promise.ChainOnResolved(ResumeWaiter(waiter));
      }
    }

    /** `await_resume`: `getValue()` of the awaited cell. */
    function AwaitResume(): (r: Result<T>)
      reads promise
      ensures r.Ok? <==> AwaitReady()
      ensures r.Ok? ==> promise.value == Some(r.value)
    {
      promise.GetValue()
    }
  }

  /** `Task<void>::Promise`: no value, only the `std::promise<void>` pair
      (`satisfied`: `set_value()` has run; `futureValid`: `_future.valid()`)
      and a list of `void()` continuations. */
  class VoidPromise {
    const base: PromiseBase
    var satisfied: bool
    var futureValid: bool
    var continuations: seq<Action>

    /** The future is consumed only by a `Wait` that obtained it, so an
        invalid future means `set_value` has run. */
    ghost predicate Valid()
      reads this
    {
      !futureValid ==> satisfied
    }

    constructor ()
      ensures Valid() && fresh(base) && base.GetExecutionCtx() == DefaultExecutor
      ensures !satisfied && futureValid && continuations == []
      ensures !IsResolved() && !IsResolvedAsWritten()
    {
      base := new PromiseBase();
      satisfied := false;
      futureValid := true;
      continuations := [];
    }

    /** What `_future.get()` would do now: throw on a consumed future, block
        before `set_value`, otherwise return. */
    function OutcomeOfWait(): WaitOutcome<()>
      reads this
    {
      if !futureValid then WaitFailed(NoState)
      else if !satisfied then WouldBlock
      else Obtained(())
    }

    /** `isResolved` as written: `_future.valid()` and the future is ready,
        that is, exactly when `Wait` would return at once. */
    function IsResolvedAsWritten(): (resolved: bool)
      reads this
      ensures resolved <==> OutcomeOfWait() == Obtained(())
    {
      futureValid && satisfied
    }

    /** `isResolved` as intended: `return_void` has run. It holds whenever
        the version as written does, and also once `Wait` has consumed the
        future: exactly when `Wait` would not block. */
    function IsResolved(): (resolved: bool)
      reads this
      ensures IsResolvedAsWritten() ==> resolved
      ensures Valid() ==> (resolved <==> OutcomeOfWait() != WouldBlock)
    {
      satisfied
    }

    /** `return_void`: satisfy the std::promise, then run every continuation
        front to back; a second call throws before running any. */
    method ReturnVoid(contextOf: CoroutineId -> ExecutorId) returns (fired: seq<Event<()>>, status: Status)
      modifies this
      ensures Valid() && IsResolved()
      ensures continuations == old(continuations) && futureValid == old(futureValid)
      ensures !old(satisfied) ==> status == Returned && fired == RunAll(old(continuations), contextOf)
      ensures old(satisfied) ==> status == Threw(PromiseAlreadySatisfied) && fired == []
    {
      if satisfied {
        status := Threw(PromiseAlreadySatisfied);
        fired := [];
        return;
      }
      satisfied := true;
      status := Returned;
      fired := [];
      var i := 0;
      while i < |continuations|
        invariant 0 <= i <= |continuations|
        invariant fired == RunAll(continuations[..i], contextOf)
      {
        assert continuations[..i + 1][..i] == continuations[..i];
        fired := fired + [Run(continuations[i], contextOf)];
        i := i + 1;
      }
      assert continuations[..|continuations|] == continuations;
    }

    /** `unhandled_exception`: `std::terminate()`; nothing changes. */
    method UnhandledException() returns (terminated: bool)
      ensures terminated
    {
      terminated := true;
    }

    /** `chainOnResolved(std::function<void()>)`: put at the front. */
    method ChainOnResolved(a: Action)
      modifies this
      ensures continuations == Register(old(continuations), a)
      ensures satisfied == old(satisfied) && futureValid == old(futureValid)
    {
      continuations := [a] + continuations;
    }

    /** `Wait`: `_future.get()`. Blocks until `return_void`, then consumes the
        future. A second call is undefined in C++; it is modelled as the
        `no_state` error that standard libraries throw. Resolution itself is
        not undone. */
    method Wait() returns (r: WaitOutcome<()>)
      requires Valid()
      modifies this
      ensures Valid() && r == old(OutcomeOfWait())
      ensures satisfied == old(satisfied) && continuations == old(continuations)
      ensures IsResolved() == old(IsResolved())
      ensures r.Obtained? ==> !IsResolvedAsWritten() && IsResolved()
      ensures !old(futureValid) ==> r == WaitFailed(NoState) && !futureValid
      ensures old(futureValid) && !old(satisfied) ==> r == WouldBlock && futureValid
      ensures old(futureValid) && old(satisfied) ==> r == Obtained(()) && !futureValid
    {
      if !futureValid {
        r := WaitFailed(NoState);
      } else if !satisfied {
        r := WouldBlock;
      } else {
        r := Obtained(());
        futureValid := false;
      }
    }
  }

  /** `Task<T>::Awaiter` instantiated for `Task<void>`: it asks the cell's
      `isResolved`, which is the version as written; its `await_resume`
      returns nothing and never throws. The `...Corrected` members ask the
      intended `isResolved` instead. */
  class VoidAwaiter {
    const promise: VoidPromise

    constructor (promise: VoidPromise)
      ensures this.promise == promise
    {
      this.promise := promise;
    }

    /** `await_ready`: ready exactly when `Wait` would return at once, which
        needs `return_void` to have run. */
    function AwaitReady(): (ready: bool)
      reads promise
      ensures ready <==> promise.OutcomeOfWait() == Obtained(())
      ensures ready ==> promise.IsResolved()
    {
      promise.IsResolvedAsWritten()
    }

    /** `await_suspend(waiter)`: registers a resume of the waiter whenever
        `await_ready` would answer false, including after `Wait`. */
    method AwaitSuspend(waiter: CoroutineId)
      modifies promise
      ensures promise.satisfied == old(promise.satisfied) && promise.futureValid == old(promise.futureValid)
      ensures old(AwaitReady()) ==> promise.continuations == old(promise.continuations)
      ensures !old(AwaitReady()) ==>
                promise.continuations == Register(old(promise.continuations), ResumeWaiter(waiter))
    {
      if !promise.IsResolvedAsWritten() {
        promise.ChainOnResolved(ResumeWaiter(waiter));
      }
    }

    /** `await_ready` with the intended `isResolved`: ready exactly when
        there is nothing left to wait for. */
    function AwaitReadyCorrected(): (ready: bool)
      reads promise
      ensures AwaitReady() ==> ready
      ensures promise.Valid() ==> (ready <==> promise.OutcomeOfWait() != WouldBlock)
    {
      promise.IsResolved()
    }

    /** `await_suspend` with the intended `isResolved`: registers only while
        `return_void` has yet to run, so every registration is later run. */
    method AwaitSuspendCorrected(waiter: CoroutineId)
      modifies promise
      ensures promise.satisfied == old(promise.satisfied) && promise.futureValid == old(promise.futureValid)
      ensures old(promise.satisfied) ==> promise.continuations == old(promise.continuations)
      ensures !old(promise.satisfied) ==>
                promise.continuations == Register(old(promise.continuations), ResumeWaiter(waiter))
    {
      if !promise.IsResolved() {
        promise.ChainOnResolved(ResumeWaiter(waiter));
      }
    }
  }

  /** A `Task<void>` promise on which `return_void` is called directly (not
      through `co_return`, which would free the frame at once), then `Wait()`:
      the `isResolved` as written now answers false, while the task is resolved. */
  method WaitThenAskResolved(contextOf: CoroutineId -> ExecutorId)
    returns (waited: WaitOutcome<()>, asWritten: bool, intended: bool)
    ensures waited == Obtained(())
    ensures !asWritten && intended
  {
    var p := new VoidPromise();
    var fired, status := p.ReturnVoid(contextOf);
    waited := p.Wait();
    asWritten := p.IsResolvedAsWritten();
    intended := p.IsResolved();
  }

  /** A live `Task<void>` promise awaited after a direct `return_void` and
      `Wait()`, as written:
      the awaiter is not ready and registers a resume of the waiter, which
      never runs, because `return_void` has already run its list and a
      further `return_void` throws before running any entry. */
  method AwaitAfterWaitHangs(waiter: CoroutineId, contextOf: CoroutineId -> ExecutorId)
    returns (ready: bool, registered: seq<Action>, status: Status, fired: seq<Event<()>>)
    ensures !ready
    ensures registered == [ResumeWaiter(waiter)]
    ensures status == Threw(PromiseAlreadySatisfied) && fired == []
  {
    var p := new VoidPromise();
    var fired0, status0 := p.ReturnVoid(contextOf);
    var waited := p.Wait();
    var awaiter := new VoidAwaiter(p);
    ready := awaiter.AwaitReady();
    awaiter.AwaitSuspend(waiter);
    registered := p.continuations;
    fired, status := p.ReturnVoid(contextOf);
  }

  /** The same sequence on a live promise with the intended `isResolved`: the awaiter is still
      ready after `Wait()`, so nothing is registered. */
  method AwaitVoidAfterWait(waiter: CoroutineId, contextOf: CoroutineId -> ExecutorId)
    returns (ready: bool, registered: nat)
    ensures ready && registered == 0
  {
    var p := new VoidPromise();
    var fired, status := p.ReturnVoid(contextOf);
    var waited := p.Wait();
    var awaiter := new VoidAwaiter(p);
    ready := awaiter.AwaitReadyCorrected();
    awaiter.AwaitSuspendCorrected(waiter);
    registered := |p.continuations|;
  }

  /** `Task<T>` of include/Task.hpp: a plain, non-owning coroutine handle. */
  class Task {
    var handle: Frame?

    constructor (handle: Frame?)
      ensures this.handle == handle
    {
      this.handle := handle;
    }

    /** `execute_async`: one resume of the handle, submitted to the executor
        the task's promise is bound to now; nothing for a null handle. */
    method ExecuteAsync() returns (submitted: seq<Submission>)
      ensures handle == null ==> submitted == []
      ensures handle != null ==> submitted == [Submission(handle.context.GetExecutionCtx(), Resume(handle.id))]
    {
      if handle == null {
        submitted := [];
      } else {
        submitted := [Submission(handle.context.GetExecutionCtx(), Resume(handle.id))];
      }
    }

    /** `set_execution_ctx`: rebind the task's promise (the handle must be non-null). */
    method SetExecutionCtx(ctx: ExecutorId)
      requires handle != null
      modifies handle.context
      ensures handle.context.GetExecutionCtx() == ctx
    {
      handle.context.SetExecutionCtx(ctx);
    }

    /** `~Task`: the destroy call is commented out, so dropping a Task leaves
        its frame alone (it frees itself at completion). */
    method Drop()
      ensures handle != null ==> handle.state == old(handle.state) && handle.destroyCount == old(handle.destroyCount)
    {
    }
  }

  /** The lifecycle of a Task.hpp frame: a task bound to `ctx` submits one
      resume to `ctx`; when its body returns, `final_suspend`
      (`suspend_never`) frees the frame; dropping the Task afterwards frees
      nothing more. */
  method RunToCompletion(id: CoroutineId, ctx: ExecutorId)
    returns (submitted: seq<Submission>, stateAtCompletion: FrameState, destroyCount: nat)
    ensures submitted == [Submission(ctx, Resume(id))]
    ensures stateAtCompletion == Destroyed && destroyCount == 1
  {
    var p := new PromiseBase();
    var frame := new Frame(id, p);
    var task := new Task(frame);
    task.SetExecutionCtx(ctx);
    submitted := task.ExecuteAsync();
    frame.ReachFinalSuspend(TaskHppFinalSuspend);
    stateAtCompletion := frame.state;
    task.Drop();
    destroyCount := frame.destroyCount;
  }
}
